=== FILE: README.md ===
# GraphQL scalars and mutation resolvers, modelled in Dafny

This project models the two pieces of logic in the GraphQL API layer of a
users/posts/profiles service that do more than forward calls to the database
client:

- **The custom scalars** (`src/routes/graphql/scalars.ts`). `UUID` admits only
  strings that the case-insensitive pattern
  `^[0-9a-f]{8}-[0-9a-f]{4}-[1-5][0-9a-f]{3}-[89ab][0-9a-f]{3}-[0-9a-f]{12}$`
  accepts. That is the 8-4-4-4-12 hex text form of section 3 of RFC 4122, with
  the version digit limited to 1-5 (section 4.1.3) and the variant digit to 8,
  9, a or b (section 4.1.1). `MemberTypeId` admits any string.
  - The pattern is modelled term by term (`Pattern`, `UuidFormat.UuidRegex`).
    Matching uses the ECMAScript ignore-case comparison.
  - It is proved equal to a position-by-position predicate
    (`UuidFormat.IsValidUuid`).
  - The three `UUID` hooks, `serialize`, `parseValue` and `parseLiteral`,
    return a `Result` carrying the same `TypeError` message as the source.
  - The `MemberTypeId` hooks never throw: `serialize` and `parseValue` always
    succeed with their input, and `parseLiteral` returns an `Option`, `None`
    standing for the `null` it gives on a non-string literal.
- **The `Mutations` root type and the by-id queries** (`src/routes/graphql/schema.ts`),
  modelled over an immutable `Store`.
  - The store has one map per table, keyed by id, and a set of
    `(subscriberId, authorId)` subscription links.
  - Each mutation is a pure function returning a `Response`: the store after
    the call and the field's value or error.
  - Some inputs come from outside the resolvers, so they are parameters:
    - `currentYear` stands for `new Date().getFullYear()`;
    - `newId` is the id the database generates on create;
    - `fault` is a failure the database may raise on its own. The model treats
      it as an opaque verdict. It covers foreign-key checks, the
      one-profile-per-user rule and connectivity, none of which the resolvers
      define.
  - Some database failures are deterministic:
    - deleting or updating a missing row fails with `RecordNotFound`;
    - creating a key that is already taken fails with `UniqueViolation`. This
      includes a duplicate subscription link, whose composite key is
      `subscriberId_authorId`.

`src/routes/graphql/resolvers/mutations.ts:24-220` repeats the resolvers of
`src/routes/graphql/schema.ts:274-472` statement for statement. The two differ
only in whitespace, in the export, and in the copy importing its input types
from `../inputs.js` (`resolvers/mutations.ts:11-18`), which is not part of this
model. The model follows both. Up to `schema.ts:431` a line of `schema.ts` sits
250 lines earlier in the copy. `schema.ts:432` is a blank line the copy lacks,
so from `subscribeTo` on the offset is 251: `schema.ts:438-447` is
`resolvers/mutations.ts:187-196` and `schema.ts:456-467` is
`resolvers/mutations.ts:205-216`. The `MutationLaws` rows cite the copy.

Modules: `Wrappers` (Option/Result), `Pattern` (anchored fixed-count regexes
with ignore-case matching), `UuidFormat` (the UUID pattern and its positional
reading), `Scalars` (the scalar hooks), `Store` (entities and the by-id
queries), `Mutations` (the resolvers), `MutationLaws` (properties across
calls).

Two behaviours of the code are worth stating up front:

- A by-id lookup that misses returns `null`, not a not-found error
  (`schema.ts:109`, `:141`, `:173`, `:208`).
- The `User` type declares `userSubscribedTo`/`subscribedToUser` as plain list
  fields with no resolver, so there is no link-to-user flattening to model.

## Model

| member | source | states |
|---|---|---|
| Pattern.MatchesIffPositions | src/routes/graphql/scalars.ts:3-4 | an anchored pattern of fixed-count classes (`[..]{n}` terms between `^` and `$`) accepts exactly the strings of its expanded length whose every character is matched, ignoring case, by the class the pattern puts at that position |
| Pattern.Canon | src/routes/graphql/scalars.ts:4 | ASCII upper-casing: lower-case ASCII letters fold to upper case and every other character stays; folding is idempotent and never moves a character into or out of ASCII. The `i` flag's own canonicalisation also upper-cases non-ASCII letters, but it never maps a non-ASCII character to an ASCII one, and this pattern's classes are all ASCII, so ASCII folding gives every comparison the verdict the `i` flag gives |
| Pattern.Repeat | src/routes/graphql/scalars.ts:4 | the `{n}` quantifier: n positions, each bearing the quantified class |
| UuidFormat.HexClassMatch | src/routes/graphql/scalars.ts:4 | under the `i` flag the class `[0-9a-f]` matches exactly the digits and the letters a-f in either case |
| UuidFormat.DashClassMatch | src/routes/graphql/scalars.ts:4 | the literal `-` matches only a hyphen |
| UuidFormat.VersionClassMatch | src/routes/graphql/scalars.ts:4 | the version class `[1-5]` matches exactly the digits 1 to 5 |
| UuidFormat.VariantClassMatch | src/routes/graphql/scalars.ts:4 | the variant class `[89ab]` matches exactly 8, 9, a, b, A, B |
| UuidFormat.UuidExpansion | src/routes/graphql/scalars.ts:4 | the UUID pattern spans 36 characters: hyphens at 8, 13, 18, 23; the version class at 14; the variant class at 19; hex everywhere else |
| UuidFormat.RegexIffValid | src/routes/graphql/scalars.ts:3-4 | a string passes the UUID pattern if and only if it has length 36, hyphens at 8, 13, 18 and 23, a hex digit of either case at every other position, 1-5 at position 14 and one of 8, 9, a, b (either case) at position 19 |
| Scalars.SerializeUuid | src/routes/graphql/scalars.ts:9-15 | succeeds exactly when the pattern accepts the value, then returns the value unchanged with its case preserved; otherwise fails with `Invalid UUID` |
| Scalars.ParseValueUuid | src/routes/graphql/scalars.ts:16-22 | the same contract for a variable value: success exactly on pattern match, identity output, `Invalid UUID` otherwise |
| Scalars.ParseLiteralUuid | src/routes/graphql/scalars.ts:23-28 | succeeds exactly for a STRING literal whose contents the pattern accepts, returning those contents; every other literal kind, and an invalid string, fails with `Invalid UUID literal` |
| Scalars.ParseValueAgreesWithSerialize | src/routes/graphql/scalars.ts:9-22 | `parseValue` and `serialize` give the same result on every string |
| Scalars.UuidRoundTrip | src/routes/graphql/scalars.ts:9-22 | for an accepted string, parsing returns it, serializing the parsed value returns it again, and parsing is idempotent |
| Scalars.LiteralAgreesWithValue | src/routes/graphql/scalars.ts:16-28 | a STRING literal is accepted inline exactly when its contents are accepted as a variable; any non-string literal (INT, ENUM or another kind), whatever its text, is refused with `Invalid UUID literal` |
| Scalars.UpperCase | src/routes/graphql/scalars.ts:4 | the ASCII upper-case form keeps the length, applies `Pattern.Canon` (ASCII folding) to each character, and leaves no lower-case ASCII letter |
| Scalars.UuidCaseInsensitive | src/routes/graphql/scalars.ts:4 | a string passes the pattern if and only if its upper-case form does |
| Scalars.NilUuidRejected | src/routes/graphql/scalars.ts:3-4 | the nil UUID `00000000-0000-0000-0000-000000000000` is refused by `serialize` and by `parseLiteral`, because its version digit is 0 |
| Scalars.SerializeMemberTypeId | src/routes/graphql/scalars.ts:36-38 | never fails; returns the string unchanged |
| Scalars.ParseValueMemberTypeId | src/routes/graphql/scalars.ts:39-41 | never fails; returns the string unchanged |
| Scalars.MemberTypeIdLiteralAgreesWithValue | src/routes/graphql/scalars.ts:39-47 | a STRING literal parses to exactly what the same string gives as a variable; every other literal kind gives null |
| Scalars.ParseLiteralMemberTypeId | src/routes/graphql/scalars.ts:42-47 | returns the contents of a STRING literal, and null rather than an error for any other literal kind |
| Store.FindUser | src/routes/graphql/schema.ts:68-110 | `user(id)` returns the stored user exactly when one is filed under `id`, and null otherwise; the returned user has the requested id |
| Store.FindPost | src/routes/graphql/schema.ts:134-142 | `post(id)` returns the stored post or null |
| Store.FindProfile | src/routes/graphql/schema.ts:198-209 | `profile(id)` returns the stored profile or null |
| Store.FindMemberType | src/routes/graphql/schema.ts:166-174 | `memberType(id)` returns the stored member type or null |
| Mutations.Message | src/routes/graphql/schema.ts:396-407 | the two domain errors carry the messages `Invalid yearOfBirth` and `Invalid userId` |
| Mutations.CreateUser | src/routes/graphql/schema.ts:284-290 | stores exactly the given name and balance under a fresh id, which the `user` lookup then returns; no other table or row changes; a taken id gives the database's unique-key error; a failure writes nothing |
| Mutations.CreatePost | src/routes/graphql/schema.ts:298-310 | stores title, content and authorId under a fresh id; no other table or row changes; a taken id gives the database's unique-key error; a failure writes nothing |
| Mutations.CreateProfile | src/routes/graphql/schema.ts:318-334 | `Invalid yearOfBirth` is the answer exactly when the year of birth lies outside [1900, currentYear], whatever else holds, and nothing is written; with an in-range year a database failure comes back as the database's own error; with an in-range year a taken id gives the database's unique-key error; otherwise the profile is stored with exactly isMale, yearOfBirth, userId and memberTypeId; success holds exactly when the year is in range and the database accepts the write |
| Mutations.DeleteUser | src/routes/graphql/schema.ts:343-346 | removes only the user with the given id and answers `USER_DELETED`; afterwards `user(id)` is null; a missing id fails without writing |
| Mutations.DeletePost | src/routes/graphql/schema.ts:354-357 | removes only the post with the given id and answers `POST_DELETED`; afterwards `post(id)` is null |
| Mutations.DeleteProfile | src/routes/graphql/schema.ts:365-368 | removes only the profile with the given id and answers `PROFILE_DELETED`; afterwards `profile(id)` is null |
| Mutations.ApplyUserChange | src/routes/graphql/schema.ts:423-427 | a user update gives each supplied field its new value and keeps every left-out field |
| Mutations.ApplyPostChange | src/routes/graphql/schema.ts:378-382 | a post update changes only the supplied title/content and never the author |
| Mutations.ApplyProfileChange | src/routes/graphql/schema.ts:410-413 | a profile update gives each supplied field its new value and keeps every left-out field |
| Mutations.ChangeUser | src/routes/graphql/schema.ts:423-427 | updates only the user with the given id, with no validation; a missing id fails without writing |
| Mutations.ChangePost | src/routes/graphql/schema.ts:378-382 | updates only the post with the given id, with no validation; a missing id fails without writing |
| Mutations.UpdateProfile | src/routes/graphql/schema.ts:410-413 | the final update of `changeProfile` stores the updated row under the given id, where the `profile` lookup then finds it; it touches no other row or table, keeps every row filed under its id, and its only failures are database failures, a missing profile id giving the record-not-found error |
| Mutations.ChangeProfile | src/routes/graphql/schema.ts:391-414 | checks the year only when one is supplied: `Invalid yearOfBirth` is the answer exactly when a supplied year lies outside [1900, currentYear], and it takes precedence over everything else. Past the year check, every failure other than `Invalid userId` is the database's own error. It then fails with `Invalid userId` exactly when a supplied userId names no user. It succeeds exactly when both checks pass and the profile exists; when both checks pass and the profile is missing it fails with the record-not-found error. On success only that profile changes, and left-out fields keep their values. Any failure writes nothing |
| Mutations.SubscribeTo | src/routes/graphql/schema.ts:438-447 | adds exactly the link (subscriber = userId, author = authorId), changes nothing else and answers `SUBSCRIBED`; an existing identical link fails without writing |
| Mutations.UnsubscribeFrom | src/routes/graphql/schema.ts:456-467 | removes exactly the link keyed by (subscriberId = userId, authorId), keeps every other link and answers `UNSUBSCRIBED`; a missing link fails without writing |
| MutationLaws.CreateProfileYearBounds | src/routes/graphql/resolvers/mutations.ts:71-74 | both bounds are inclusive: 1900 and currentYear are admitted; 1899 and currentYear + 1 fail with the store unchanged |
| MutationLaws.ChangeProfileWithoutYearIgnoresClock | src/routes/graphql/resolvers/mutations.ts:144-149 | with no year in the payload the year check does not run: the outcome is the same for every current year |
| MutationLaws.ChangeProfileYearCheckedFirst | src/routes/graphql/resolvers/mutations.ts:144-158 | an input with a year outside [1900, currentYear], too early or too late, and a userId naming no user reports the year error and writes nothing |
| MutationLaws.ChangeProfileEmptyPayload | src/routes/graphql/resolvers/mutations.ts:160-163 | an empty change payload returns the profile unchanged and leaves the store exactly as it was |
| MutationLaws.SubscribeThenUnsubscribe | src/routes/graphql/resolvers/mutations.ts:187-216 | unsubscribing with the same pair undoes a subscription exactly |
| MutationLaws.UnsubscribeThenSubscribe | src/routes/graphql/resolvers/mutations.ts:187-216 | subscribing with the same pair undoes an unsubscription exactly |
| MutationLaws.DuplicateSubscribeFails | src/routes/graphql/resolvers/mutations.ts:187-196 | a second identical subscription fails and writes nothing |
| MutationLaws.SecondUnsubscribeFails | src/routes/graphql/resolvers/mutations.ts:205-216 | a second identical unsubscription finds no link and writes nothing |
| MutationLaws.SubscribeNeverSwaps | src/routes/graphql/resolvers/mutations.ts:187-196 | the stored link has the caller as subscriber; the reverse link is neither added nor removed |
| MutationLaws.CreateThenDeleteUser | src/routes/graphql/resolvers/mutations.ts:34-96 | a created user is returned by its lookup; deleting it answers `USER_DELETED`; afterwards the lookup is null and the store is as before the creation |
| MutationLaws.CreateThenDeletePost | src/routes/graphql/resolvers/mutations.ts:48-107 | create then delete of a post answers `POST_DELETED`, nulls the lookup and restores the store |
| MutationLaws.CreateThenDeleteProfile | src/routes/graphql/resolvers/mutations.ts:68-118 | create then delete of a profile answers `PROFILE_DELETED`, nulls the lookup and restores the store |
| MutationLaws.DeleteUserTwiceFails | src/routes/graphql/resolvers/mutations.ts:93-96 | a second delete of the same user fails and writes nothing |
| MutationLaws.DeleteUserKeepsOtherLookups | src/routes/graphql/resolvers/mutations.ts:93-96 | deleting one user leaves the lookup of every other user as it was, and the lookup of every post and profile that does not refer to the deleted user |

## Left out

- The list queries `users`, `posts`, `profiles` and `memberTypes`
  (`schema.ts:32-60` and the like): they return whatever `findMany` returns, in
  the database's order. No resolver logic decides their contents.
- Relation `include` trees on the `user` and `profile` lookups. They shape
  which related rows the database embeds, and the database alone decides that.
- Delete cascades and referential actions. These are database schema rules
  that are not part of this model. A delete here removes only the targeted row.
- Mutations.DeleteUser: the model assumes the database takes no referential
  action on delete, so the frame in this contract (only the users table
  changes) keeps posts, profiles and links that refer to the deleted user. A
  real cascade may remove them, and the model says nothing about that.
  `MutationLaws.DeleteUserKeepsOtherLookups` speaks only of rows that do not
  refer to the deleted user, which a cascade cannot reach.
- Mutations.DeletePost and Mutations.DeleteProfile: the same holds for their
  frames.
- Foreign-key, one-profile-per-user and connectivity failures. The model
  represents them only as the opaque `fault` parameter.
- The `String(value)` coercion in front of the scalar hooks. Values reach the
  hooks as strings.
- An explicit GraphQL `null` for a field of a change payload. The model
  distinguishes only "left out" from "supplied". A `null` would skip the
  checks and reach the database, whose treatment of it is not part of this
  model.
- Failures of the by-id lookups themselves (connectivity). The lookups are
  total here.
- IEEE-754 semantics of `balance` and `discount`. They are stored as `real`
  and never computed on.
- Schema assembly (`schema.ts:474-477`), the input object type declarations
  and the declarative object types under `src/routes/graphql/types/`. These
  are static wiring with no behaviour beyond the shapes the datatypes mirror.
- `src/routes/graphql/resolvers/queries.ts`. It duplicates the queries of
  `schema.ts`.
- Pattern.Canon: folds only ASCII letters. The `i` flag's canonicalisation
  also upper-cases non-ASCII letters (`é` to `É`), which the model does not
  do; since this pattern's classes are all ASCII and that canonicalisation
  never maps a non-ASCII character to an ASCII one, no verdict of the UUID
  pattern depends on the difference.
- Mutations.ChangeProfile: the `userId` check and the final update are
  evaluated on one store, as one atomic step. The program makes them as two
  separate database calls (`schema.ts:402-404`, then `schema.ts:410-413`) with
  no transaction between them, so a user deleted between the two calls is not
  modelled. The same holds for every resolver: each is one step on one store,
  and concurrent requests and the async runtime are not modelled.
- Scalars.UuidCaseInsensitive: states case-insensitivity for ASCII upper-casing
  only. The `i` flag's own canonicalisation never maps a non-ASCII character
  to an ASCII one, so ASCII folding is exactly what this pattern sees. The
  same property stated with JavaScript's full Unicode `toUpperCase` is false:
  `"\uFB00000000-0000-1000-8000-000000000000"` (35 characters, starting with
  the ligature U+FB00) fails the pattern, but its `toUpperCase()` starts with
  `FF`, has 36 characters and passes.

=== FILE: mutation_laws.dfy ===
/** Properties that relate several mutations, or one mutation at several inputs. */
module MutationLaws {
  import opened Wrappers
  import opened Store
  import opened Mutations

  /** Both ends of the year range are admitted; one year outside either end is refused with nothing written. */
  lemma CreateProfileYearBounds(st: Store, dto: CreateProfileInput, currentYear: int, newId: Id)
    requires MinYearOfBirth <= currentYear < 0x7fff_ffff
    requires newId !in st.profiles
    ensures CreateProfile(st, dto.(yearOfBirth := 1899), currentYear, newId, None) == Response(st, Failure(InvalidYearOfBirth))
    ensures CreateProfile(st, dto.(yearOfBirth := currentYear + 1), currentYear, newId, None) == Response(st, Failure(InvalidYearOfBirth))
    ensures CreateProfile(st, dto.(yearOfBirth := 1900), currentYear, newId, None).result.Success?
    ensures CreateProfile(st, dto.(yearOfBirth := currentYear), currentYear, newId, None).result.Success?
  {
  }

  /** With no year in the payload the clock plays no part: the outcome is the same whatever the current year. */
  lemma ChangeProfileWithoutYearIgnoresClock(st: Store, id: Id, dto: ChangeProfileInput, year1: int, year2: int, fault: Option<DbError>)
    requires dto.yearOfBirth.None?
    ensures ChangeProfile(st, id, dto, year1, fault) == ChangeProfile(st, id, dto, year2, fault)
  {
  }

  /** An input bad on both counts reports the year, because the year is checked first. */
  lemma ChangeProfileYearCheckedFirst(st: Store, id: Id, dto: ChangeProfileInput, currentYear: int, fault: Option<DbError>)
    requires dto.yearOfBirth.Some? && !YearOfBirthInRange(dto.yearOfBirth.value, currentYear)
    requires SuppliesUserId(dto) && dto.userId.value !in st.users
    ensures ChangeProfile(st, id, dto, currentYear, fault) == Response(st, Failure(InvalidYearOfBirth))
  {
  }

  /** An empty change payload rewrites the profile with itself: the store is exactly as before. */
  lemma ChangeProfileEmptyPayload(st: Store, id: Id, currentYear: int)
    requires id in st.profiles
    ensures ChangeProfile(st, id, ChangeProfileInput(None, None, None, None), currentYear, None)
         == Response(st, Success(st.profiles[id]))
  {
  }

  /** Subscribing adds the link the caller names, and unsubscribing with the same pair takes it away again. */
  lemma SubscribeThenUnsubscribe(st: Store, userId: Id, authorId: Id)
    requires Link(userId, authorId) !in st.links
    ensures SubscribeTo(st, userId, authorId, None).result == Success(SubscribedToken)
    ensures UnsubscribeFrom(SubscribeTo(st, userId, authorId, None).store, userId, authorId, None)
         == Response(st, Success(UnsubscribedToken))
  {
  }

  /** Unsubscribing and subscribing again with the same pair restores the store. */
  lemma UnsubscribeThenSubscribe(st: Store, userId: Id, authorId: Id)
    requires Link(userId, authorId) in st.links
    ensures UnsubscribeFrom(st, userId, authorId, None).result == Success(UnsubscribedToken)
    ensures SubscribeTo(UnsubscribeFrom(st, userId, authorId, None).store, userId, authorId, None)
         == Response(st, Success(SubscribedToken))
  {
  }

  /** A second identical subscription is refused by the link table's key, and the store keeps the one link. */
  lemma DuplicateSubscribeFails(st: Store, userId: Id, authorId: Id)
    requires SubscribeTo(st, userId, authorId, None).result.Success?
    ensures var s1 := SubscribeTo(st, userId, authorId, None).store;
      SubscribeTo(s1, userId, authorId, None) == Response(s1, Failure(Collaborator(UniqueViolation)))
  {
  }

  /** A second identical unsubscription finds no link to delete. */
  lemma SecondUnsubscribeFails(st: Store, userId: Id, authorId: Id)
    requires UnsubscribeFrom(st, userId, authorId, None).result.Success?
    ensures var s1 := UnsubscribeFrom(st, userId, authorId, None).store;
      UnsubscribeFrom(s1, userId, authorId, None) == Response(s1, Failure(Collaborator(RecordNotFound)))
  {
  }

  /** The link is stored with the caller as subscriber: the reverse link is untouched unless it is the same pair. */
  lemma SubscribeNeverSwaps(st: Store, userId: Id, authorId: Id, fault: Option<DbError>)
    requires userId != authorId
    ensures var r := SubscribeTo(st, userId, authorId, fault);
      && (r.result.Success? ==> Link(userId, authorId) in r.store.links)
      && (Link(authorId, userId) in r.store.links <==> Link(authorId, userId) in st.links)
  {
  }

  /**
    The user lifecycle: a created user is found by id, deleting it answers
    `USER_DELETED`, afterwards the lookup answers null and the store is the one
    before the creation.
  */
  lemma CreateThenDeleteUser(st: Store, dto: CreateUserInput, newId: Id)
    requires newId !in st.users
    ensures var c := CreateUser(st, dto, newId, None);
      && c.result == Success(User(newId, dto.name, dto.balance))
      && FindUser(c.store, newId) == Some(User(newId, dto.name, dto.balance))
      && var d := DeleteUser(c.store, newId, None);
      && d.result == Success(UserDeletedToken)
      && FindUser(d.store, newId) == None
      && d.store == st
  {
  }

  /** A created post is found by id; deleting it answers `POST_DELETED` and restores the store. */
  lemma CreateThenDeletePost(st: Store, dto: CreatePostInput, newId: Id)
    requires newId !in st.posts
    ensures var c := CreatePost(st, dto, newId, None);
      && FindPost(c.store, newId) == Some(Post(newId, dto.title, dto.content, dto.authorId))
      && var d := DeletePost(c.store, newId, None);
      && d.result == Success(PostDeletedToken)
      && FindPost(d.store, newId) == None
      && d.store == st
  {
  }

  /** A created profile is found by id; deleting it answers `PROFILE_DELETED` and restores the store. */
  lemma CreateThenDeleteProfile(st: Store, dto: CreateProfileInput, currentYear: int, newId: Id)
    requires YearOfBirthInRange(dto.yearOfBirth, currentYear)
    requires newId !in st.profiles
    ensures var c := CreateProfile(st, dto, currentYear, newId, None);
      && FindProfile(c.store, newId) == Some(Profile(newId, dto.isMale, dto.yearOfBirth, dto.userId, dto.memberTypeId))
      && var d := DeleteProfile(c.store, newId, None);
      && d.result == Success(ProfileDeletedToken)
      && FindProfile(d.store, newId) == None
      && d.store == st
  {
  }

  /** Deleting twice: the second delete finds nothing and writes nothing. */
  lemma DeleteUserTwiceFails(st: Store, id: Id)
    requires DeleteUser(st, id, None).result.Success?
    ensures var s1 := DeleteUser(st, id, None).store;
      DeleteUser(s1, id, None) == Response(s1, Failure(Collaborator(RecordNotFound)))
  {
  }

  /**
    A user delete leaves every other user's lookup as it was, and every post and
    profile that does not refer to the deleted user: the rows a database cascade
    could reach are exactly the ones this lemma does not speak about.
  */
  lemma DeleteUserKeepsOtherLookups(st: Store, id: Id, other: Id, fault: Option<DbError>)
    requires other != id
    ensures FindUser(DeleteUser(st, id, fault).store, other) == FindUser(st, other)
    ensures forall p :: p in st.posts && st.posts[p].authorId != id ==>
      FindPost(DeleteUser(st, id, fault).store, p) == FindPost(st, p)
    ensures forall q :: q in st.profiles && st.profiles[q].userId != id ==>
      FindProfile(DeleteUser(st, id, fault).store, q) == FindProfile(st, q)
  {
  }
}

=== FILE: mutations.dfy ===
/**
  The `Mutations` root type: create, change and delete for users, posts and
  profiles, and the subscribe/unsubscribe link mutations. Each resolver is a
  pure function from the store to a `Response`: the store after the call and
  the value or error the field resolves to.

  Inputs the resolvers cannot see are parameters: `currentYear` stands for
  `new Date().getFullYear()`, `newId` for the id the collaborator generates on
  create, and `fault` for a failure the collaborator may report on its own
  (foreign keys, the one-profile-per-user rule, connectivity); `None` means it
  raised nothing of that kind. A delete or update that matches no row, and a
  create whose key is taken, fail deterministically.
*/
module Mutations {
  import opened Wrappers
  import opened Store

  datatype DbError =
    | RecordNotFound
    | UniqueViolation
    | Rejected(code: string)

  datatype MutationError =
    | InvalidYearOfBirth
    | InvalidUserId
    | Collaborator(cause: DbError)

  /** The `Error` message a domain validation throws. */
  function Message(e: MutationError): (m: string)
    requires !e.Collaborator?
    ensures e.InvalidYearOfBirth? ==> m == "Invalid yearOfBirth"
    ensures e.InvalidUserId? ==> m == "Invalid userId"
  {
    match e
    case InvalidYearOfBirth => "Invalid yearOfBirth"
    case InvalidUserId => "Invalid userId"
  }

  /** The store after a mutation, and what its field resolved to. */
  datatype Response<T> = Response(store: Store, result: Result<T, MutationError>)

  const MinYearOfBirth := 1900

  const UserDeletedToken := "USER_DELETED"
  const PostDeletedToken := "POST_DELETED"
  const ProfileDeletedToken := "PROFILE_DELETED"
  const SubscribedToken := "SUBSCRIBED"
  const UnsubscribedToken := "UNSUBSCRIBED"

  datatype CreateUserInput = CreateUserInput(name: string, balance: real)
  datatype CreatePostInput = CreatePostInput(title: string, content: string, authorId: Id)
  datatype CreateProfileInput = CreateProfileInput(isMale: bool, yearOfBirth: Int32, userId: Id, memberTypeId: string)

  /** Change payloads: `None` is a field the caller left out. */
  datatype ChangeUserInput = ChangeUserInput(name: Option<string>, balance: Option<real>)
  datatype ChangePostInput = ChangePostInput(title: Option<string>, content: Option<string>)
  datatype ChangeProfileInput = ChangeProfileInput(
    isMale: Option<bool>, yearOfBirth: Option<Int32>, userId: Option<Id>, memberTypeId: Option<string>)

  /** The admissible years of birth: from 1900 through the current year, both included. */
  predicate YearOfBirthInRange(year: int, currentYear: int) {
    MinYearOfBirth <= year <= currentYear
  }

  /** A change payload passes the year check when it leaves the year out or supplies one in range. */
  predicate ChangeYearAcceptable(dto: ChangeProfileInput, currentYear: int) {
    dto.yearOfBirth.None? || YearOfBirthInRange(dto.yearOfBirth.value, currentYear)
  }

  /** The userId check runs only for a truthy `userId`, that is a non-empty string. */
  predicate SuppliesUserId(dto: ChangeProfileInput) {
    dto.userId.Some? && dto.userId.value != ""
  }

  /** Only the users table differs between `st` and `st'`. */
  ghost predicate OnlyUsersChanged(st: Store, st': Store) {
    st'.posts == st.posts && st'.profiles == st.profiles && st'.memberTypes == st.memberTypes && st'.links == st.links
  }

  ghost predicate OnlyPostsChanged(st: Store, st': Store) {
    st'.users == st.users && st'.profiles == st.profiles && st'.memberTypes == st.memberTypes && st'.links == st.links
  }

  ghost predicate OnlyProfilesChanged(st: Store, st': Store) {
    st'.users == st.users && st'.posts == st.posts && st'.memberTypes == st.memberTypes && st'.links == st.links
  }

  ghost predicate OnlyLinksChanged(st: Store, st': Store) {
    st'.users == st.users && st'.posts == st.posts && st'.profiles == st.profiles && st'.memberTypes == st.memberTypes
  }

  // ------------------------------------------------------------ updates

  /** A partial update: supplied fields take the new value, left-out fields keep the old one. */
  function ApplyUserChange(u: User, dto: ChangeUserInput): (v: User)
    ensures v.id == u.id
    ensures dto.name.None? ==> v.name == u.name
    ensures dto.name.Some? ==> v.name == dto.name.value
    ensures dto.balance.None? ==> v.balance == u.balance
    ensures dto.balance.Some? ==> v.balance == dto.balance.value
  {
    u.(name := dto.name.GetOr(u.name), balance := dto.balance.GetOr(u.balance))
  }

  function ApplyPostChange(p: Post, dto: ChangePostInput): (q: Post)
    ensures q.id == p.id && q.authorId == p.authorId
    ensures dto.title.None? ==> q.title == p.title
    ensures dto.title.Some? ==> q.title == dto.title.value
    ensures dto.content.None? ==> q.content == p.content
    ensures dto.content.Some? ==> q.content == dto.content.value
  {
    p.(title := dto.title.GetOr(p.title), content := dto.content.GetOr(p.content))
  }

  function ApplyProfileChange(p: Profile, dto: ChangeProfileInput): (q: Profile)
    ensures q.id == p.id
    ensures dto.isMale.None? ==> q.isMale == p.isMale
    ensures dto.isMale.Some? ==> q.isMale == dto.isMale.value
    ensures dto.yearOfBirth.None? ==> q.yearOfBirth == p.yearOfBirth
    ensures dto.yearOfBirth.Some? ==> q.yearOfBirth == dto.yearOfBirth.value
    ensures dto.userId.None? ==> q.userId == p.userId
    ensures dto.userId.Some? ==> q.userId == dto.userId.value
    ensures dto.memberTypeId.None? ==> q.memberTypeId == p.memberTypeId
    ensures dto.memberTypeId.Some? ==> q.memberTypeId == dto.memberTypeId.value
  {
    p.(isMale := dto.isMale.GetOr(p.isMale),
       yearOfBirth := dto.yearOfBirth.GetOr(p.yearOfBirth),
       userId := dto.userId.GetOr(p.userId),
       memberTypeId := dto.memberTypeId.GetOr(p.memberTypeId))
  }

  // ------------------------------------------------------------ create

  /** `createUser`: stores the name and balance under the generated id. */
  function CreateUser(st: Store, dto: CreateUserInput, newId: Id, fault: Option<DbError>): (r: Response<User>)
    ensures fault.Some? ==> r.result == Failure(Collaborator(fault.value))
    ensures r.result.Success? <==> fault.None? && newId !in st.users
    ensures fault.None? && newId in st.users ==> r.result == Failure(Collaborator(UniqueViolation))
    ensures r.result.Failure? ==> r.store == st
    ensures r.result.Success? ==>
      && r.result.value == User(newId, dto.name, dto.balance)
      && FindUser(r.store, newId) == Some(r.result.value)
      && AgreeExcept(st.users, r.store.users, newId)
      && OnlyUsersChanged(st, r.store)
    ensures Valid(st) ==> Valid(r.store)
  {
    if fault.Some? then Response(st, Failure(Collaborator(fault.value)))
    else if newId in st.users then Response(st, Failure(Collaborator(UniqueViolation)))
    else
      var u := User(newId, dto.name, dto.balance);
      Response(st.(users := st.users[newId := u]), Success(u))
  }

  /** `createPost`: stores the post connected to its author; a missing author is the collaborator's to reject. */
  function CreatePost(st: Store, dto: CreatePostInput, newId: Id, fault: Option<DbError>): (r: Response<Post>)
    ensures fault.Some? ==> r.result == Failure(Collaborator(fault.value))
    ensures r.result.Success? <==> fault.None? && newId !in st.posts
    ensures fault.None? && newId in st.posts ==> r.result == Failure(Collaborator(UniqueViolation))
    ensures r.result.Failure? ==> r.store == st
    ensures r.result.Success? ==>
      && r.result.value == Post(newId, dto.title, dto.content, dto.authorId)
      && FindPost(r.store, newId) == Some(r.result.value)
      && AgreeExcept(st.posts, r.store.posts, newId)
      && OnlyPostsChanged(st, r.store)
    ensures Valid(st) ==> Valid(r.store)
  {
    if fault.Some? then Response(st, Failure(Collaborator(fault.value)))
    else if newId in st.posts then Response(st, Failure(Collaborator(UniqueViolation)))
    else
      var p := Post(newId, dto.title, dto.content, dto.authorId);
      Response(st.(posts := st.posts[newId := p]), Success(p))
  }

  /**
    `createProfile`: the year of birth is checked before anything is written;
    then the four input fields are stored under the generated id.
  */
  function CreateProfile(st: Store, dto: CreateProfileInput, currentYear: int, newId: Id, fault: Option<DbError>)
    : (r: Response<Profile>)
    ensures r.result == Failure(InvalidYearOfBirth) <==> !YearOfBirthInRange(dto.yearOfBirth, currentYear)
    ensures YearOfBirthInRange(dto.yearOfBirth, currentYear) && fault.Some? ==> r.result == Failure(Collaborator(fault.value))
    ensures r.result.Success? <==>
      YearOfBirthInRange(dto.yearOfBirth, currentYear) && fault.None? && newId !in st.profiles
    ensures YearOfBirthInRange(dto.yearOfBirth, currentYear) && fault.None? && newId in st.profiles ==>
      r.result == Failure(Collaborator(UniqueViolation))
    ensures r.result.Failure? ==> r.store == st
    ensures r.result.Success? ==>
      && r.result.value == Profile(newId, dto.isMale, dto.yearOfBirth, dto.userId, dto.memberTypeId)
      && FindProfile(r.store, newId) == Some(r.result.value)
      && AgreeExcept(st.profiles, r.store.profiles, newId)
      && OnlyProfilesChanged(st, r.store)
    ensures Valid(st) ==> Valid(r.store)
  {
    if dto.yearOfBirth < MinYearOfBirth || dto.yearOfBirth > currentYear then
      Response(st, Failure(InvalidYearOfBirth))
    else if fault.Some? then Response(st, Failure(Collaborator(fault.value)))
    else if newId in st.profiles then Response(st, Failure(Collaborator(UniqueViolation)))
    else
      var p := Profile(newId, dto.isMale, dto.yearOfBirth, dto.userId, dto.memberTypeId);
      Response(st.(profiles := st.profiles[newId := p]), Success(p))
  }

  // ------------------------------------------------------------ delete

  /** `deleteUser`: removes the user filed under `id` and answers with the fixed token. */
  function DeleteUser(st: Store, id: Id, fault: Option<DbError>): (r: Response<string>)
    ensures fault.Some? ==> r.result == Failure(Collaborator(fault.value))
    ensures r.result.Success? <==> fault.None? && id in st.users
    ensures fault.None? && id !in st.users ==> r.result == Failure(Collaborator(RecordNotFound))
    ensures r.result.Failure? ==> r.store == st
    ensures r.result.Success? ==>
      && r.result.value == UserDeletedToken
      && FindUser(r.store, id).None?
      && AgreeExcept(st.users, r.store.users, id)
      && OnlyUsersChanged(st, r.store)
    ensures Valid(st) ==> Valid(r.store)
  {
    if fault.Some? then Response(st, Failure(Collaborator(fault.value)))
    else if id !in st.users then Response(st, Failure(Collaborator(RecordNotFound)))
    else Response(st.(users := st.users - {id}), Success(UserDeletedToken))
  }

  /** `deletePost`. */
  function DeletePost(st: Store, id: Id, fault: Option<DbError>): (r: Response<string>)
    ensures fault.Some? ==> r.result == Failure(Collaborator(fault.value))
    ensures r.result.Success? <==> fault.None? && id in st.posts
    ensures fault.None? && id !in st.posts ==> r.result == Failure(Collaborator(RecordNotFound))
    ensures r.result.Failure? ==> r.store == st
    ensures r.result.Success? ==>
      && r.result.value == PostDeletedToken
      && FindPost(r.store, id).None?
      && AgreeExcept(st.posts, r.store.posts, id)
      && OnlyPostsChanged(st, r.store)
    ensures Valid(st) ==> Valid(r.store)
  {
    if fault.Some? then Response(st, Failure(Collaborator(fault.value)))
    else if id !in st.posts then Response(st, Failure(Collaborator(RecordNotFound)))
    else Response(st.(posts := st.posts - {id}), Success(PostDeletedToken))
  }

  /** `deleteProfile`. */
  function DeleteProfile(st: Store, id: Id, fault: Option<DbError>): (r: Response<string>)
    ensures fault.Some? ==> r.result == Failure(Collaborator(fault.value))
    ensures r.result.Success? <==> fault.None? && id in st.profiles
    ensures fault.None? && id !in st.profiles ==> r.result == Failure(Collaborator(RecordNotFound))
    ensures r.result.Failure? ==> r.store == st
    ensures r.result.Success? ==>
      && r.result.value == ProfileDeletedToken
      && FindProfile(r.store, id).None?
      && AgreeExcept(st.profiles, r.store.profiles, id)
      && OnlyProfilesChanged(st, r.store)
    ensures Valid(st) ==> Valid(r.store)
  {
    if fault.Some? then Response(st, Failure(Collaborator(fault.value)))
    else if id !in st.profiles then Response(st, Failure(Collaborator(RecordNotFound)))
    else Response(st.(profiles := st.profiles - {id}), Success(ProfileDeletedToken))
  }

  // ------------------------------------------------------------ change

  /** `changeUser`: the payload goes to the collaborator's update unchecked. */
  function ChangeUser(st: Store, id: Id, dto: ChangeUserInput, fault: Option<DbError>): (r: Response<User>)
    ensures fault.Some? ==> r.result == Failure(Collaborator(fault.value))
    ensures r.result.Success? <==> fault.None? && id in st.users
    ensures fault.None? && id !in st.users ==> r.result == Failure(Collaborator(RecordNotFound))
    ensures r.result.Failure? ==> r.store == st
    ensures r.result.Success? ==>
      && r.result.value == ApplyUserChange(st.users[id], dto)
      && FindUser(r.store, id) == Some(r.result.value)
      && AgreeExcept(st.users, r.store.users, id)
      && OnlyUsersChanged(st, r.store)
    ensures Valid(st) ==> Valid(r.store)
  {
    if fault.Some? then Response(st, Failure(Collaborator(fault.value)))
    else if id !in st.users then Response(st, Failure(Collaborator(RecordNotFound)))
    else
      var u := ApplyUserChange(st.users[id], dto);
      Response(st.(users := st.users[id := u]), Success(u))
  }

  /** `changePost`: the payload goes to the collaborator's update unchecked. */
  function ChangePost(st: Store, id: Id, dto: ChangePostInput, fault: Option<DbError>): (r: Response<Post>)
    ensures fault.Some? ==> r.result == Failure(Collaborator(fault.value))
    ensures r.result.Success? <==> fault.None? && id in st.posts
    ensures fault.None? && id !in st.posts ==> r.result == Failure(Collaborator(RecordNotFound))
    ensures r.result.Failure? ==> r.store == st
    ensures r.result.Success? ==>
      && r.result.value == ApplyPostChange(st.posts[id], dto)
      && FindPost(r.store, id) == Some(r.result.value)
      && AgreeExcept(st.posts, r.store.posts, id)
      && OnlyPostsChanged(st, r.store)
    ensures Valid(st) ==> Valid(r.store)
  {
    if fault.Some? then Response(st, Failure(Collaborator(fault.value)))
    else if id !in st.posts then Response(st, Failure(Collaborator(RecordNotFound)))
    else
      var p := ApplyPostChange(st.posts[id], dto);
      Response(st.(posts := st.posts[id := p]), Success(p))
  }

  /** The write that ends `changeProfile`, once both validations have passed. */
  function UpdateProfile(st: Store, id: Id, dto: ChangeProfileInput, fault: Option<DbError>): (r: Response<Profile>)
    ensures fault.Some? ==> r.result == Failure(Collaborator(fault.value))
    ensures r.result.Success? <==> fault.None? && id in st.profiles
    ensures fault.None? && id !in st.profiles ==> r.result == Failure(Collaborator(RecordNotFound))
    ensures r.result.Failure? ==> r.store == st && r.result.error.Collaborator?
    ensures r.result.Success? ==>
      && r.result.value == ApplyProfileChange(st.profiles[id], dto)
      && FindProfile(r.store, id) == Some(r.result.value)
      && AgreeExcept(st.profiles, r.store.profiles, id)
      && OnlyProfilesChanged(st, r.store)
    ensures Valid(st) ==> Valid(r.store)
  {
    if fault.Some? then Response(st, Failure(Collaborator(fault.value)))
    else if id !in st.profiles then Response(st, Failure(Collaborator(RecordNotFound)))
    else
      var p := ApplyProfileChange(st.profiles[id], dto);
      Response(st.(profiles := st.profiles[id := p]), Success(p))
  }

  /**
    `changeProfile`: a supplied year of birth is checked first; then a supplied
    `userId` must name an existing user (this lookup is itself a collaborator
    call); only then is the profile updated.
  */
  function ChangeProfile(st: Store, id: Id, dto: ChangeProfileInput, currentYear: int, fault: Option<DbError>)
    : (r: Response<Profile>)
    ensures r.result == Failure(InvalidYearOfBirth) <==> !ChangeYearAcceptable(dto, currentYear)
    ensures ChangeYearAcceptable(dto, currentYear) && fault.Some? ==> r.result == Failure(Collaborator(fault.value))
    ensures r.result.Failure? && ChangeYearAcceptable(dto, currentYear) && r.result != Failure(InvalidUserId) ==>
      r.result.error.Collaborator?
    ensures r.result == Failure(InvalidUserId) <==>
      ChangeYearAcceptable(dto, currentYear) && SuppliesUserId(dto) && fault.None? && dto.userId.value !in st.users
    ensures r.result.Success? <==>
      && ChangeYearAcceptable(dto, currentYear)
      && (SuppliesUserId(dto) ==> dto.userId.value in st.users)
      && fault.None?
      && id in st.profiles
    ensures
      && ChangeYearAcceptable(dto, currentYear)
      && (SuppliesUserId(dto) ==> dto.userId.value in st.users)
      && fault.None?
      && id !in st.profiles
      ==> r.result == Failure(Collaborator(RecordNotFound))
    ensures r.result.Failure? ==> r.store == st
    ensures r.result.Success? ==>
      && r.result.value == ApplyProfileChange(st.profiles[id], dto)
      && FindProfile(r.store, id) == Some(r.result.value)
      && AgreeExcept(st.profiles, r.store.profiles, id)
      && OnlyProfilesChanged(st, r.store)
    ensures Valid(st) ==> Valid(r.store)
  {
    if dto.yearOfBirth.Some? && (dto.yearOfBirth.value < MinYearOfBirth || dto.yearOfBirth.value > currentYear) then
      Response(st, Failure(InvalidYearOfBirth))
    else if dto.userId.Some? && dto.userId.value != "" then
      if fault.Some? then Response(st, Failure(Collaborator(fault.value)))
      else if FindUser(st, dto.userId.value).None? then Response(st, Failure(InvalidUserId))
      else UpdateProfile(st, id, dto, fault)
    else UpdateProfile(st, id, dto, fault)
  }

  // ------------------------------------------------------------ links

  /** `subscribeTo`: the caller `userId` becomes the subscriber of `authorId`. */
  function SubscribeTo(st: Store, userId: Id, authorId: Id, fault: Option<DbError>): (r: Response<string>)
    ensures fault.Some? ==> r.result == Failure(Collaborator(fault.value))
    ensures r.result.Success? <==> fault.None? && Link(userId, authorId) !in st.links
    ensures fault.None? && Link(userId, authorId) in st.links ==> r.result == Failure(Collaborator(UniqueViolation))
    ensures r.result.Failure? ==> r.store == st
    ensures r.result.Success? ==>
      && r.result.value == SubscribedToken
      && r.store.links == st.links + {Link(userId, authorId)}
      && OnlyLinksChanged(st, r.store)
    ensures Valid(st) ==> Valid(r.store)
  {
    var link := Link(subscriberId := userId, authorId := authorId);
    if fault.Some? then Response(st, Failure(Collaborator(fault.value)))
    else if link in st.links then Response(st, Failure(Collaborator(UniqueViolation)))
    else Response(st.(links := st.links + {link}), Success(SubscribedToken))
  }

  /** `unsubscribeFrom`: deletes the link keyed by the pair (subscriberId = `userId`, `authorId`). */
  function UnsubscribeFrom(st: Store, userId: Id, authorId: Id, fault: Option<DbError>): (r: Response<string>)
    ensures fault.Some? ==> r.result == Failure(Collaborator(fault.value))
    ensures r.result.Success? <==> fault.None? && Link(userId, authorId) in st.links
    ensures fault.None? && Link(userId, authorId) !in st.links ==> r.result == Failure(Collaborator(RecordNotFound))
    ensures r.result.Failure? ==> r.store == st
    ensures r.result.Success? ==>
      && r.result.value == UnsubscribedToken
      && r.store.links == st.links - {Link(userId, authorId)}
      && OnlyLinksChanged(st, r.store)
    ensures Valid(st) ==> Valid(r.store)
  {
    var key := Link(subscriberId := userId, authorId := authorId);
    if fault.Some? then Response(st, Failure(Collaborator(fault.value)))
    else if key !in st.links then Response(st, Failure(Collaborator(RecordNotFound)))
    else Response(st.(links := st.links - {key}), Success(UnsubscribedToken))
  }
}

=== FILE: pattern.dfy ===
/**
  Anchored regular expressions made of character classes with fixed repetition
  counts, such as `^[0-9a-f]{8}-[1-5]$`, matched with the `i` (ignore case) flag
  of ECMAScript regular expressions. `Canon` folds only the ASCII letters, so
  `Matches` agrees with the ECMAScript engine only for classes whose members are
  all ASCII (a class such as `[é]` would differ on `É`); the UUID pattern is one.
*/
module Pattern {

  /** An inclusive character range inside a class, `a-f`; a single character `x` is the range `x-x`. */
  datatype Range = Range(lo: char, hi: char)

  /** A bracketed class `[...]`, or a literal character, written as its ranges. */
  type Class = seq<Range>

  /** One class followed by a fixed repetition count: `[0-9a-f]{8}` is `Term(hex, 8)`; a bare atom has count 1. */
  datatype Term = Term(cls: Class, count: nat)

  /** The terms between `^` and `$`, in order. */
  type Regex = seq<Term>

  /**
    The canonical form ECMAScript compares under the `i` flag (without `u`): the
    upper-case form of the character, except that a non-ASCII character never
    folds onto an ASCII one. Every class used here names only ASCII characters,
    so folding the ASCII letters is exactly the comparison the engine makes.
  */
  function Canon(c: char): (u: char)
    ensures 'a' <= c <= 'z' ==> u as int == c as int - 32
    ensures !('a' <= c <= 'z') ==> u == c
    ensures Canon(u) == u
    ensures c as int < 128 <==> u as int < 128
  {
    if 'a' <= c <= 'z' then (c as int - 32) as char else c
  }

  /** A range matches `c` ignoring case: some member of the range has the same canonical form as `c`. */
  ghost predicate RangeMatch(r: Range, c: char) {
    exists m: char :: r.lo <= m <= r.hi && Canon(m) == Canon(c)
  }

  /** A class matches `c` ignoring case when one of its ranges does. */
  ghost predicate ClassMatch(cls: Class, c: char) {
    exists k :: 0 <= k < |cls| && RangeMatch(cls[k], c)
  }

  /** Every character of `w` is matched by `cls`. */
  ghost predicate AllMatch(cls: Class, w: string) {
    forall i :: 0 <= i < |w| ==> ClassMatch(cls, w[i])
  }

  /** `RegExp.prototype.test` for an anchored regex of fixed-count terms: each term consumes exactly its count. */
  ghost predicate Matches(re: Regex, s: string)
    decreases |re|
  {
    if |re| == 0 then |s| == 0
    else
      var t := re[0];
      t.count <= |s| && AllMatch(t.cls, s[..t.count]) && Matches(re[1..], s[t.count..])
  }

  /** `n` copies of `cls`. */
  function Repeat(cls: Class, n: nat): (r: seq<Class>)
    ensures |r| == n
    ensures forall i :: 0 <= i < n ==> r[i] == cls
  {
    if n == 0 then [] else [cls] + Repeat(cls, n - 1)
  }

  /** The class each position of a matching string must satisfy, one entry per character. */
  function Expand(re: Regex): (r: seq<Class>)
    decreases |re|
  {
    if |re| == 0 then [] else Repeat(re[0].cls, re[0].count) + Expand(re[1..])
  }

  /** `s` has one character per class of `e`, each matched by its class. */
  ghost predicate PositionsMatch(e: seq<Class>, s: string) {
    |s| == |e| && forall i :: 0 <= i < |s| ==> ClassMatch(e[i], s[i])
  }

  /** Matching a concatenation of position classes is matching each part against its share of the string. */
  lemma ConcatPositions(h: seq<Class>, t: seq<Class>, s: string)
    ensures PositionsMatch(h + t, s) <==>
      |h| <= |s| && PositionsMatch(h, s[..|h|]) && PositionsMatch(t, s[|h|..])
  {
    if PositionsMatch(h + t, s) {
      forall i | 0 <= i < |t|
        ensures ClassMatch(t[i], s[|h|..][i])
      {
        assert (h + t)[|h| + i] == t[i];
      }
    }
    if |h| <= |s| && PositionsMatch(h, s[..|h|]) && PositionsMatch(t, s[|h|..]) {
      forall i | 0 <= i < |s|
        ensures ClassMatch((h + t)[i], s[i])
      {
        if i < |h| {
          assert s[..|h|][i] == s[i];
        } else {
          assert s[|h|..][i - |h|] == s[i];
        }
      }
    }
  }

  /** `n` repetitions of a class match exactly the length-`n` strings the class matches throughout. */
  lemma RepeatPositions(cls: Class, n: nat, w: string)
    ensures PositionsMatch(Repeat(cls, n), w) <==> |w| == n && AllMatch(cls, w)
  {
  }

  /** A fixed-count regex matches exactly the strings whose every position is matched by the class expanded there. */
  lemma {:induction false} MatchesIffPositions(re: Regex, s: string)
    ensures Matches(re, s) <==> PositionsMatch(Expand(re), s)
    decreases |re|
  {
    if |re| != 0 {
      var t := re[0];
      var head := Repeat(t.cls, t.count);
      assert Expand(re) == head + Expand(re[1..]);
      ConcatPositions(head, Expand(re[1..]), s);
      if t.count <= |s| {
        RepeatPositions(t.cls, t.count, s[..t.count]);
        MatchesIffPositions(re[1..], s[t.count..]);
      }
    }
  }
}

=== FILE: scalars.dfy ===
/**
  The two custom GraphQL scalars: `UUID`, which admits only strings in the
  UUID text form, and `MemberTypeId`, which admits any string. Each scalar has
  three hooks: `serialize` (outgoing values), `parseValue` (incoming variable
  values) and `parseLiteral` (values written inline in the query document).
  Values reach the hooks already as strings; the JavaScript `String(value)`
  coercion in front of them is not modelled.
*/
module Scalars {
  import opened Wrappers
  import opened Pattern
  import opened UuidFormat

  /** The `TypeError` a scalar hook throws, with its message. */
  datatype ScalarError = TypeError(message: string)

  const InvalidUuid := TypeError("Invalid UUID")
  const InvalidUuidLiteral := TypeError("Invalid UUID literal")

  /** A literal value node of a GraphQL document, one constructor per `Kind` a value can have. */
  datatype ValueNode =
    | StringValue(value: string, block: bool)
    | IntValue(text: string)
    | FloatValue(text: string)
    | BooleanValue(b: bool)
    | NullValue
    | EnumValue(name: string)
    | ListValue(values: seq<ValueNode>)
    | ObjectValue(fields: seq<ObjectField>)
    | Variable(name: string)

  datatype ObjectField = ObjectField(name: string, value: ValueNode)

  // ---------------------------------------------------------------- UUID

  /** `UUID.serialize`: the value itself when the pattern accepts it, `Invalid UUID` otherwise. */
  function SerializeUuid(value: string): (r: Result<string, ScalarError>)
    ensures r.Success? <==> Matches(UuidRegex, value)
    ensures r.Success? ==> r.value == value
    ensures r.Failure? ==> r.error == InvalidUuid
  {
    RegexIffValid(value);
    if !IsValidUuid(value) then Failure(InvalidUuid) else Success(value)
  }

  /** `UUID.parseValue`: the same check applied to a variable value. */
  function ParseValueUuid(value: string): (r: Result<string, ScalarError>)
    ensures r.Success? <==> Matches(UuidRegex, value)
    ensures r.Success? ==> r.value == value
    ensures r.Failure? ==> r.error == InvalidUuid
  {
    RegexIffValid(value);
    if !IsValidUuid(value) then Failure(InvalidUuid) else Success(value)
  }

  /** `UUID.parseLiteral`: only a string literal whose contents the pattern accepts. */
  function ParseLiteralUuid(ast: ValueNode): (r: Result<string, ScalarError>)
    ensures r.Success? <==> ast.StringValue? && Matches(UuidRegex, ast.value)
    ensures r.Success? ==> r.value == ast.value
    ensures r.Failure? ==> r.error == InvalidUuidLiteral
  {
    match ast
    case StringValue(v, _) =>
      RegexIffValid(v);
      if IsValidUuid(v) then Success(v) else Failure(InvalidUuidLiteral)
    case _ => Failure(InvalidUuidLiteral)
  }

  /** Variable parsing and output serialization accept the same strings and return the same value. */
  lemma ParseValueAgreesWithSerialize(s: string)
    ensures ParseValueUuid(s) == SerializeUuid(s)
  {
  }

  /** A parsed UUID serializes back to the very string the client sent, and parsing it again changes nothing. */
  lemma UuidRoundTrip(s: string)
    requires Matches(UuidRegex, s)
    ensures ParseValueUuid(s) == Success(s)
    ensures SerializeUuid(ParseValueUuid(s).value) == Success(s)
    ensures ParseValueUuid(ParseValueUuid(s).value) == ParseValueUuid(s)
  {
  }

  /** The same text is accepted inline as a string literal and as a variable, and nothing but a string literal is. */
  lemma LiteralAgreesWithValue(ast: ValueNode)
    ensures ast.StringValue? ==> (ParseLiteralUuid(ast).Success? <==> ParseValueUuid(ast.value).Success?)
    ensures !ast.StringValue? ==> ParseLiteralUuid(ast) == Failure(InvalidUuidLiteral)
  {
  }

  /** The ASCII upper-case form of `s`, the folding the `i` flag applies. */
  function UpperCase(s: string): (r: string)
    ensures |r| == |s|
    ensures forall i :: 0 <= i < |s| ==> r[i] == Canon(s[i])
    ensures forall i :: 0 <= i < |r| ==> !('a' <= r[i] <= 'z')
  {
    seq(|s|, i requires 0 <= i < |s| => Canon(s[i]))
  }

  /** Under the `i` flag letter case never decides acceptance: a string passes exactly when its upper-case form does. */
  lemma UuidCaseInsensitive(s: string)
    ensures Matches(UuidRegex, s) <==> Matches(UuidRegex, UpperCase(s))
  {
    RegexIffValid(s);
    RegexIffValid(UpperCase(s));
    var u := UpperCase(s);
    if |s| == UuidLength {
      forall i | 0 <= i < |s|
        ensures IsHexDigit(s[i]) <==> IsHexDigit(u[i])
        ensures (s[i] == '-') <==> (u[i] == '-')
        ensures IsVersionDigit(s[i]) <==> IsVersionDigit(u[i])
        ensures IsVariantDigit(s[i]) <==> IsVariantDigit(u[i])
      {
      }
    }
  }

  const NilUuid := "00000000-0000-0000-0000-000000000000"

  /** The nil UUID of section 4.1.7 of RFC 4122 has version digit 0, which the pattern rejects. */
  lemma NilUuidRejected()
    ensures SerializeUuid(NilUuid) == Failure(InvalidUuid)
    ensures ParseLiteralUuid(StringValue(NilUuid, false)) == Failure(InvalidUuidLiteral)
  {
    assert NilUuid[14] == '0';
  }

  // -------------------------------------------------------- MemberTypeId

  /** `MemberTypeId.serialize`: never fails and hands the string back unchanged. */
  function SerializeMemberTypeId(value: string): (r: Result<string, ScalarError>)
    ensures r == Success(value)
  {
    Success(value)
  }

  /** `MemberTypeId.parseValue`: never fails and hands the string back unchanged. */
  function ParseValueMemberTypeId(value: string): (r: Result<string, ScalarError>)
    ensures r == Success(value)
  {
    Success(value)
  }

  /**
    `MemberTypeId.parseLiteral`: the contents of a string literal; for any other
    kind of literal it returns `null` (here `None`) instead of throwing.
  */
  function ParseLiteralMemberTypeId(ast: ValueNode): (r: Option<string>)
    ensures r.Some? <==> ast.StringValue?
    ensures r.Some? ==> r.value == ast.value
  {
    match ast
    case StringValue(v, _) => Some(v)
    case _ => None
  }

  /** A string literal parses to what the same string gives as a variable; any other literal kind gives null. */
  lemma MemberTypeIdLiteralAgreesWithValue(ast: ValueNode)
    ensures ast.StringValue? ==> ParseLiteralMemberTypeId(ast) == Some(ParseValueMemberTypeId(ast.value).value)
    ensures !ast.StringValue? ==> ParseLiteralMemberTypeId(ast).None?
  {
  }
}

=== FILE: store.dfy ===
/**
  The persistence collaborator's state as the resolvers see it: one table per
  entity, keyed by id, and the subscription link table keyed by the composite
  (subscriberId, authorId) pair. The by-id root queries read it.
*/
module Store {
  import opened Wrappers

  /** Entity ids; the `UUID` scalar has already checked their text form. */
  type Id = string

  /** `GraphQLInt`: a signed 32-bit integer, enforced by the GraphQL runtime before any resolver runs. */
  type Int32 = i: int | -0x8000_0000 <= i < 0x8000_0000

  /** `balance` and `discount` are GraphQL `Float`s; they are stored and returned, never computed on. */
  datatype User = User(id: Id, name: string, balance: real)

  datatype Post = Post(id: Id, title: string, content: string, authorId: Id)

  datatype Profile = Profile(id: Id, isMale: bool, yearOfBirth: Int32, userId: Id, memberTypeId: string)

  datatype MemberType = MemberType(id: string, discount: real, postsLimitPerMonth: Int32)

  /** "subscriber follows author". */
  datatype Link = Link(subscriberId: Id, authorId: Id)

  datatype Store = Store(
    users: map<Id, User>,
    posts: map<Id, Post>,
    profiles: map<Id, Profile>,
    memberTypes: map<string, MemberType>,
    links: set<Link>)

  /** Every row is filed under its own id. */
  ghost predicate Valid(st: Store) {
    && (forall k :: k in st.users ==> st.users[k].id == k)
    && (forall k :: k in st.posts ==> st.posts[k].id == k)
    && (forall k :: k in st.profiles ==> st.profiles[k].id == k)
    && (forall k :: k in st.memberTypes ==> st.memberTypes[k].id == k)
  }

  /** `m` and `m'` agree on every key except possibly `k`. */
  ghost predicate AgreeExcept<V>(m: map<Id, V>, m': map<Id, V>, k: Id) {
    forall x :: x != k ==> (x in m <==> x in m') && (x in m ==> m[x] == m'[x])
  }

  /** The `user(id)` query: the user filed under `id`, or `null` when there is none. */
  function FindUser(st: Store, id: Id): (r: Option<User>)
    ensures r.Some? <==> id in st.users
    ensures r.Some? ==> r.value == st.users[id]
    ensures Valid(st) && r.Some? ==> r.value.id == id
  {
    if id in st.users then Some(st.users[id]) else None
  }

  /** The `post(id)` query. */
  function FindPost(st: Store, id: Id): (r: Option<Post>)
    ensures r.Some? <==> id in st.posts
    ensures r.Some? ==> r.value == st.posts[id]
    ensures Valid(st) && r.Some? ==> r.value.id == id
  {
    if id in st.posts then Some(st.posts[id]) else None
  }

  /** The `profile(id)` query. */
  function FindProfile(st: Store, id: Id): (r: Option<Profile>)
    ensures r.Some? <==> id in st.profiles
    ensures r.Some? ==> r.value == st.profiles[id]
    ensures Valid(st) && r.Some? ==> r.value.id == id
  {
    if id in st.profiles then Some(st.profiles[id]) else None
  }

  /** The `memberType(id)` query, keyed by a `MemberTypeId`. */
  function FindMemberType(st: Store, id: string): (r: Option<MemberType>)
    ensures r.Some? <==> id in st.memberTypes
    ensures r.Some? ==> r.value == st.memberTypes[id]
    ensures Valid(st) && r.Some? ==> r.value.id == id
  {
    if id in st.memberTypes then Some(st.memberTypes[id]) else None
  }
}

=== FILE: uuid_format.dfy ===
/**
  The text form accepted by the `UUID` scalar: the pattern
  `^[0-9a-f]{8}-[0-9a-f]{4}-[1-5][0-9a-f]{3}-[89ab][0-9a-f]{3}-[0-9a-f]{12}$`
  with the ignore-case flag. That is the 8-4-4-4-12 hex form of section 3 of
  RFC 4122, with the version digit limited to 1-5 (section 4.1.3) and the
  variant digit to 8, 9, a, b (section 4.1.1).
*/
module UuidFormat {
  import opened Pattern

  const HexClass: Class := [Range('0', '9'), Range('a', 'f')]
  const DashClass: Class := [Range('-', '-')]
  const VersionClass: Class := [Range('1', '5')]
  const VariantClass: Class := [Range('8', '8'), Range('9', '9'), Range('a', 'a'), Range('b', 'b')]

  /** The pattern term by term, as it is written. */
  const UuidRegex: Regex := [
    Term(HexClass, 8), Term(DashClass, 1),
    Term(HexClass, 4), Term(DashClass, 1),
    Term(VersionClass, 1), Term(HexClass, 3), Term(DashClass, 1),
    Term(VariantClass, 1), Term(HexClass, 3), Term(DashClass, 1),
    Term(HexClass, 12)
  ]

  const UuidLength := 36

  predicate IsHexDigit(c: char) {
    '0' <= c <= '9' || 'a' <= c <= 'f' || 'A' <= c <= 'F'
  }

  predicate IsVersionDigit(c: char) {
    '1' <= c <= '5'
  }

  predicate IsVariantDigit(c: char) {
    c == '8' || c == '9' || c == 'a' || c == 'b' || c == 'A' || c == 'B'
  }

  /** The four positions that hold the group separators. */
  predicate IsHyphenPosition(i: int) {
    i == 8 || i == 13 || i == 18 || i == 23
  }

  /** The UUID text form stated position by position. */
  predicate IsValidUuid(s: string) {
    && |s| == UuidLength
    && (forall i :: 0 <= i < |s| && IsHyphenPosition(i) ==> s[i] == '-')
    && (forall i :: 0 <= i < |s| && !IsHyphenPosition(i) ==> IsHexDigit(s[i]))
    && IsVersionDigit(s[14])
    && IsVariantDigit(s[19])
  }

  /** The class the pattern places at position `i`. */
  function PositionClass(i: int): Class {
    if IsHyphenPosition(i) then DashClass
    else if i == 14 then VersionClass
    else if i == 19 then VariantClass
    else HexClass
  }

  /** `m` witnesses that class `cls` matches `c` through its range `k`. */
  lemma ClassWitness(cls: Class, k: int, m: char, c: char)
    requires 0 <= k < |cls| && cls[k].lo <= m <= cls[k].hi && Canon(m) == Canon(c)
    ensures ClassMatch(cls, c)
  {
  }

  lemma HexClassMatch(c: char)
    ensures ClassMatch(HexClass, c) <==> IsHexDigit(c)
  {
    if IsHexDigit(c) {
      if '0' <= c <= '9' {
        ClassWitness(HexClass, 0, c, c);
      } else if 'a' <= c <= 'f' {
        ClassWitness(HexClass, 1, c, c);
      } else {
        var m := (c as int + 32) as char;
        ClassWitness(HexClass, 1, m, c);
      }
    }
    if ClassMatch(HexClass, c) {
      var k :| 0 <= k < |HexClass| && RangeMatch(HexClass[k], c);
      var m :| HexClass[k].lo <= m <= HexClass[k].hi && Canon(m) == Canon(c);
    }
  }

  lemma DashClassMatch(c: char)
    ensures ClassMatch(DashClass, c) <==> c == '-'
  {
    if c == '-' {
      ClassWitness(DashClass, 0, c, c);
    }
    if ClassMatch(DashClass, c) {
      var k :| 0 <= k < |DashClass| && RangeMatch(DashClass[k], c);
      var m :| DashClass[k].lo <= m <= DashClass[k].hi && Canon(m) == Canon(c);
    }
  }

  lemma VersionClassMatch(c: char)
    ensures ClassMatch(VersionClass, c) <==> IsVersionDigit(c)
  {
    if IsVersionDigit(c) {
      ClassWitness(VersionClass, 0, c, c);
    }
    if ClassMatch(VersionClass, c) {
      var k :| 0 <= k < |VersionClass| && RangeMatch(VersionClass[k], c);
      var m :| VersionClass[k].lo <= m <= VersionClass[k].hi && Canon(m) == Canon(c);
    }
  }

  lemma VariantClassMatch(c: char)
    ensures ClassMatch(VariantClass, c) <==> IsVariantDigit(c)
  {
    if c == '8' {
      ClassWitness(VariantClass, 0, c, c);
    } else if c == '9' {
      ClassWitness(VariantClass, 1, c, c);
    } else if c == 'a' || c == 'A' {
      ClassWitness(VariantClass, 2, 'a', c);
    } else if c == 'b' || c == 'B' {
      ClassWitness(VariantClass, 3, 'b', c);
    }
    if ClassMatch(VariantClass, c) {
      var k :| 0 <= k < |VariantClass| && RangeMatch(VariantClass[k], c);
      var m :| VariantClass[k].lo <= m <= VariantClass[k].hi && Canon(m) == Canon(c);
    }
  }

  /** `e` holds, from position `start` on, the classes `PositionClass` names. */
  ghost predicate FitsAt(e: seq<Class>, start: int) {
    forall j :: 0 <= j < |e| ==> e[j] == PositionClass(start + j)
  }

  /** `PositionClass` names `cls` at every position of `[start, start + count)`. */
  ghost predicate Covers(cls: Class, start: int, count: int) {
    forall j :: start <= j < start + count ==> PositionClass(j) == cls
  }

  /** One term of the pattern: if the rest fits after it, the whole suffix fits from `start`. */
  lemma ExpandStep(re: Regex, k: nat, start: int)
    requires k < |re|
    requires Covers(re[k].cls, start, re[k].count)
    requires FitsAt(Expand(re[k + 1..]), start + re[k].count)
    ensures FitsAt(Expand(re[k..]), start)
    ensures |Expand(re[k..])| == re[k].count + |Expand(re[k + 1..])|
  {
  }

  lemma UuidTailExpansion()
    ensures FitsAt(Expand(UuidRegex[5..]), 15)
    ensures |Expand(UuidRegex[5..])| == 21
  {
    var re := UuidRegex;
    assert re[11..] == [];
    assert re[10] == Term(HexClass, 12);
    ExpandStep(re, 10, 24);
    assert re[9] == Term(DashClass, 1);
    ExpandStep(re, 9, 23);
    assert re[8] == Term(HexClass, 3);
    ExpandStep(re, 8, 20);
    assert re[7] == Term(VariantClass, 1);
    ExpandStep(re, 7, 19);
    assert re[6] == Term(DashClass, 1);
    ExpandStep(re, 6, 18);
    assert re[5] == Term(HexClass, 3);
    ExpandStep(re, 5, 15);
  }

  lemma UuidMiddleExpansion()
    ensures FitsAt(Expand(UuidRegex[2..]), 9)
    ensures |Expand(UuidRegex[2..])| == 27
  {
    var re := UuidRegex;
    UuidTailExpansion();
    assert re[4] == Term(VersionClass, 1);
    ExpandStep(re, 4, 14);
    assert re[3] == Term(DashClass, 1);
    ExpandStep(re, 3, 13);
    assert re[2] == Term(HexClass, 4);
    ExpandStep(re, 2, 9);
  }

  /** Unrolling the pattern yields, position by position, the classes `PositionClass` names. */
  lemma UuidExpansion()
    ensures |Expand(UuidRegex)| == UuidLength
    ensures forall i :: 0 <= i < UuidLength ==> Expand(UuidRegex)[i] == PositionClass(i)
  {
    var re := UuidRegex;
    UuidMiddleExpansion();
    assert re[1] == Term(DashClass, 1);
    ExpandStep(re, 1, 8);
    assert re[0] == Term(HexClass, 8);
    ExpandStep(re, 0, 0);
    assert re[0..] == re;
    assert FitsAt(Expand(re), 0);
  }

  /** The regex test and the positional predicate accept exactly the same strings. */
  lemma RegexIffValid(s: string)
    ensures Matches(UuidRegex, s) <==> IsValidUuid(s)
  {
    MatchesIffPositions(UuidRegex, s);
    UuidExpansion();
    var e := Expand(UuidRegex);
    if |s| == UuidLength {
      assert PositionsMatch(e, s) <==> forall i :: 0 <= i < |s| ==> ClassMatch(e[i], s[i]);
      forall i | 0 <= i < |s|
        ensures ClassMatch(e[i], s[i]) <==>
          (if IsHyphenPosition(i) then s[i] == '-'
           else if i == 14 then IsVersionDigit(s[i])
           else if i == 19 then IsVariantDigit(s[i])
           else IsHexDigit(s[i]))
      {
        HexClassMatch(s[i]);
        DashClassMatch(s[i]);
        VersionClassMatch(s[i]);
        VariantClassMatch(s[i]);
      }
      if IsValidUuid(s) {
        assert IsVersionDigit(s[14]) ==> IsHexDigit(s[14]);
      }
      if forall i :: 0 <= i < |s| ==> ClassMatch(e[i], s[i]) {
        assert ClassMatch(e[14], s[14]) && ClassMatch(e[19], s[19]);
      }
    }
  }
}

=== FILE: wrappers.dfy ===
/** The optional and error-carrying values shared by the scalar and mutation models. */
module Wrappers {

  /** A value that may be absent: GraphQL `null`, or a field left out of an input object. */
  datatype Option<+T> = None | Some(value: T) {

    /** The value if present, otherwise `default`. */
    function GetOr(default: T): T {
      match this
      case Some(v) => v
      case None => default
    }
  }

  /** Either a result or the error a resolver raises instead of returning. */
  datatype Result<+T, +E> = Success(value: T) | Failure(error: E)
}
